=== FILE: README.md ===
# INIT package manager: installation bookkeeping

This project models the bookkeeping core of `PackageManager` in `initpkg.py`,
the package manager of the INIT scripting language. The model covers:

- the configuration held in memory: a JSON object with a `repository` URL, an
  `installed_packages` table from package name to `{version, path}`, and any
  other keys the configuration file carries;
- the configuration file `packages.json` on disk;
- the operations that read and update both: loading the configuration,
  fetching the package index, installing one name, installing a batch of
  names, and installing a package from a local directory.

Every network and filesystem step is an outcome that the caller supplies:
- `IndexResponse`: the request for `index.json` either failed
  (`FetchFailed`) or gave an index, together with whether the cache copy was
  written (`Received`);
- `Transfer`: one per requested name, saying what downloading `main.init`
  and writing the package directory did, and how far the configuration save
  got;
- `SaveOutcome`: how far writing `packages.json` got. The file may not open
  (`NotOpened`), it may be opened and therefore emptied before the write
  fails (`Truncated`), or the whole object is written (`Saved`);
- booleans for the local install's `main.init` check and its copy, plus a
  `SaveOutcome` for its save.

With those outcomes fixed, the core is a sequential state machine over a map.

Modules, leaves first:

- `Config` (`config.dfy`): the JSON values, the default configuration, the
  configuration file's three states (missing, unreadable, a stored object),
  `Load` and `AfterSave`. `Load` lays the file's object over the defaults key by key,
  the way `dict.update` does.
- `Paths` (`paths.dfy`): `Path(p).name` as `BaseName`. It splits at `/` and
  drops empty and `.` segments, as path objects do. `PACKAGES_DIR / name` is
  `JoinPath`.
- `Index` (`index.dfy`): the index as a map from name to a record with a
  version. `FetchPackageIndex` returns the received index, or an empty one
  after any failure. A failed cache write counts as a failure: it happens
  inside the same `try`.
- `Installer` (`installer.dfy`): the specification. The decision chain of
  `_install_single`, the batch `install`, and `install_local` are functions
  over a `Session` (the configuration in memory plus the configuration file),
  followed by the lemmas about batches.
- `Manager` (`manager.dfy`): the `PackageManager` class. It has the
  configuration and the file as mutable fields, and its methods update them
  in place. `LoadConfig` is proved to leave `Config.Load` of the file, and
  `SaveConfig` to leave `Config.AfterSave` of the old file. `InstallSingle`,
  `Install` and `InstallLocal` are each proved equal to the `Installer`
  function of the same name. `Install` does this with a loop invariant over
  the names handled so far.

Behaviours of the code that the model keeps:

- A failing `save_config` inside `_install_single` happens after the entry
  was assigned into the table. The exception is caught, so the entry stays
  in memory even though the name is reported as failed. A later save in the
  same batch writes that entry to disk as well.
- `save_config` is not atomic. Opening `packages.json` for writing empties
  it, so a write that fails after the open leaves a file that no longer
  parses. The next load then gives the defaults, and every package recorded
  so far is forgotten on disk (`TruncatedSaveForgetsInstalls`).
- A repeated name is a no-op only when an earlier request for it recorded an
  entry. After a failed download, the same name is tried again.
- `install_local(".")` and `install_local("/")` name the package `""`. The
  target directory is then the packages directory itself. The recorded path
  is that directory (`LocalInstallOfCurrentDirectory`). Replacing that
  target with the copy deletes the whole packages directory first, so every
  other installed package loses its files but keeps its entry in the table.
- `install_local("..")` names the package `".."`. Its target is the parent of
  the packages directory, the application home. Replacing it deletes
  `packages.json` and the index cache along with everything else there.
  The removal itself then raises: its last step removes `packages/..`,
  which no longer resolves once `packages/` is gone, so the copy never runs
  and the install cannot finish. The configuration file is gone and the
  next load gives the defaults
  (`LocalInstallOfParentForgetsInstalls`).

## Model

| member | source | states |
|---|---|---|
| Config.Defaults | initpkg.py:36-39 | the default configuration has exactly the keys `repository` (the built-in URL) and `installed_packages` (an empty object) |
| Config.Load | initpkg.py:34-45 | a missing or unreadable file gives the default URL and an empty table; with a stored object, every key of the file has the file's value, every default key absent from the file keeps its default, extra keys are kept, and the result has an installed table exactly when the file does not replace it by a non-object |
| Config.SaveLoadRoundTrip | initpkg.py:34-50 | saving a configuration that has both well-known keys and loading it back gives the same configuration |
| Config.ReloadIsStable | initpkg.py:34-50 | load, save, load gives the configuration of the first load |
| Config.AfterSave | initpkg.py:47-50 | when the file cannot be opened it is as before; when it is opened but the write fails it is emptied and the next load gives the defaults; when the write succeeds the file holds the configuration, which loads back unchanged when it has both well-known keys |
| Index.FetchPackageIndex | initpkg.py:52-69 | the index is the received one when the fetch and the cache write both succeeded, and empty when either failed |
| Paths.BaseName | initpkg.py:160-161 | the package name of a source directory is empty exactly when every `/`-separated segment of the path is empty or `.`; otherwise it is the last segment that is neither, so a single part: non-empty, not `.`, without `/` |
| Paths.KeepNone | initpkg.py:160-161 | a path keeps no part exactly when every segment is empty or `.` |
| Paths.KeepLast | initpkg.py:160-161 | the last kept part of a path is its last segment that is neither empty nor `.` |
| Paths.CurrentDirectoryHasNoName | initpkg.py:160-161 | the package name of `.` is empty |
| Paths.ParentDirectoryName | initpkg.py:160-161 | the package name of `..` is `..` |
| Paths.JoinPath | initpkg.py:102 | `dir / name` is `dir` itself for an empty name; otherwise it starts with `dir`, and for a single-part name its last component is that name |
| Paths.JoinedBaseName | initpkg.py:168 | the last component of `dir + "/" + name` is `name`, for a single-part name |
| Installer.Record | initpkg.py:116-119 | recording an entry sets exactly that name in the installed table to the entry; no other table entry and no other configuration key changes |
| Installer.InstallSingle | initpkg.py:82-125 | an installed name or one missing from the index leaves everything unchanged; otherwise a written package is recorded with the index's version at its package directory, a failed download or write leaves the table unchanged, no other key or table entry changes, the status says which branch was taken, success is reported exactly when the package was written and the save completed, the file then holds the new configuration, a save cut short after opening leaves the file unreadable, and otherwise the file is unchanged |
| Installer.InstallAll | initpkg.py:79-80 | a batch gives one status per name, keeps every existing entry unchanged (the table only grows) and changes no other configuration key |
| Installer.Install | initpkg.py:71-80 | when the fetched index is empty nothing changes and nothing is attempted; otherwise every requested name gets a status and no existing entry is removed or overwritten |
| Installer.InstallLocal | initpkg.py:158-181 | without `main.init` nothing changes; after the copy, the entry for the directory's last component is set to version `1.0.0` at its package directory, overwriting any earlier entry; no other entry changes; the install finishes exactly when `main.init` exists, the copy went through and the save completed, and the file then holds the new configuration; a save cut short after opening leaves the file unreadable; otherwise, for a directory named `..` the file is missing, because removing the target deleted it, and in every other case the file is unchanged; a failed copy or save raises |
| Installer.ClearTarget | initpkg.py:168-170 | removing the existing target before the copy deletes the configuration file exactly when the package name is `..`, after which a load gives the defaults; any other name leaves the file as it was |
| Installer.InstallAllHas | initpkg.py:79-125 | after a batch, a name is installed exactly when it was before or the index lists it and one of its transfers wrote the package (so a failure on one name does not stop later names) |
| Installer.InstallAllEntry | initpkg.py:92-119 | every name a batch adds is listed in the index and recorded with the index's version at its package directory |
| Installer.InstallAllPrefix | initpkg.py:79-80 | the names are handled in order: the statuses of the first m requests do not depend on the later ones |
| Installer.InstallAllStatus | initpkg.py:79-93 | request j reports already installed exactly when its name was installed before the batch or an earlier transfer for it wrote the package, not found exactly when it is neither installed nor in the index, and success exactly when it was not yet installed, is listed and was written and saved |
| Installer.RepeatedNameIsNoOp | initpkg.py:79-86 | a name repeated after a request that succeeded or found it installed is a no-op |
| Installer.FailureIsIsolated | initpkg.py:79-125 | for two new listed names, the first failing to download and the second written, only the second is installed afterwards; the first reports failure and the second success exactly when its save completed |
| Installer.SaveStep | initpkg.py:115-121 | one request that succeeds leaves the file holding the new configuration with the requested name; one that did not reach a save that opened the file leaves the file as it was; a file that held a snapshot of the configuration still holds one |
| Installer.FileUntouchedWithoutSave | initpkg.py:79-121 | after a batch, the file is untouched when no request succeeded or had its save cut short after opening |
| Installer.FileHoldsSnapshot | initpkg.py:79-121 | after a batch, the file is untouched, emptied, or a snapshot of the in-memory configuration that has only entries the table still has |
| Installer.SuccessesAreSaved | initpkg.py:115-121 | after a batch, the file holds every name that succeeded unless a later save emptied the file |
| Installer.TruncatedSaveForgetsInstalls | initpkg.py:47-50 | when a save that succeeded is followed by one cut short after opening, both names stay recorded in memory but the file no longer parses and the next load has an empty installed table |
| Installer.LocalInstallOfParentForgetsInstalls | initpkg.py:158-181 | installing from `..` without finishing leaves the configuration file missing or unreadable, so the next load has an empty installed table |
| Installer.LocalInstallOfCurrentDirectory | initpkg.py:160-178 | installing from `.` records the empty name with the packages directory itself as its path |
| Manager.PackageManager.constructor | initpkg.py:25-27 | a new manager holds the loaded configuration and leaves the file as it was |
| Manager.PackageManager.LoadConfig | initpkg.py:34-45 | the configuration becomes `Load` of the file |
| Manager.PackageManager.SaveConfig | initpkg.py:47-50 | the save reports success exactly when the whole object was written; the file becomes `Config.AfterSave` of the old file: unchanged when it could not be opened, unreadable when the write failed after opening, the in-memory configuration when written |
| Manager.PackageManager.InstallSingle | initpkg.py:82-125 | the new configuration, file and status are those of `Installer.InstallSingle` on the old state |
| Manager.PackageManager.Install | initpkg.py:71-80 | the loop over the names leaves the configuration, file and statuses of `Installer.Install` on the old state |
| Manager.PackageManager.InstallLocal | initpkg.py:158-181 | the new configuration, file and status are those of `Installer.InstallLocal` on the old state |

## Left out

- Network access: fetching `index.json` and `main.init` is an outcome supplied by the caller. The URLs built from `repository` are not modelled, and neither is the downloaded content.
- Filesystem effects: creating directories, writing `main.init` and `package.json`, the index cache file, and the `rmtree`/`copytree` of a local install appear only as success flags. The one effect of that `rmtree` on the configuration file, its deletion when the target is the application home, is modelled. A failed write can leave a partial package directory behind, and the model makes no claim about that.
- JSON encoding and decoding: the configuration file and the index are already-parsed objects. A configuration file whose JSON is not an object counts as unreadable. Python's `dict.update` would also accept a list of key/value pairs.
- Index payloads that are not JSON objects: the index is modelled as a map. In the source, a falsy payload (`null`, `false`, `0`, an empty list or string) ends the install at initpkg.py:75-77. A non-empty list or string that lacks the name reports it as not found. A non-zero number or `true` raises at the `in` test at initpkg.py:88, and a list or string that contains the name raises at the lookup of its record at initpkg.py:92; both are outside any `try`.
- Index records without a `version` field: the source raises outside its `try` there. Index records are modelled as always having a version.
- Installer.InstallSingle, Installer.InstallAll, Installer.Install, Installer.InstallLocal and the class methods require `installed_packages` to be a JSON object. With another value in the configuration file, the source raises or treats the value as a list or string.
- Installer.InstallLocal, Manager.PackageManager.InstallLocal: for `..` the removal of the target always raises, so the install cannot finish; the model leaves this to the `copied` flag, which is false for every real run on `..`.
- Paths.BaseName: only POSIX paths are modelled. Windows drive letters and the special leading `//` are not.
- Paths.JoinPath: normalisation of a requested name that contains `/`, starts with `/`, or has `.` parts is not modelled. Such a name is joined as text.
- The printed messages: the statuses returned by the operations stand for them.
- `setup_directories` (creating the application directories) and `create_package` (template text for a new package).
- `list_installed` and everything after it (uninstalling, searching, the command-line interface, `main`): outside the installation bookkeeping modelled here.
- `setup.py`: packaging metadata only.
- Dependency installation, reading the cached index back, cycle detection, the `source` field of installed entries, and the "no partial directory after a failure" promise: the code does not do these. The model follows the code.

=== FILE: config.dfy ===
/**
 The persisted configuration of the INIT package manager: a JSON object whose
 two well-known keys are the repository URL and the table of installed packages.
 Loading starts from a default object and overlays whatever the configuration
 file holds, key by key, so unknown keys in the file survive.
 */
module Config {

  /** A parsed JSON value. Numbers are kept as their literal text: nothing here computes with them. */
  datatype Json =
    | Null
    | Bool(b: bool)
    | Number(literal: string)
    | Str(s: string)
    | Array(items: seq<Json>)
    | Object(fields: map<string, Json>)

  /** A JSON object, as `json.load` returns it for the configuration file. */
  type Document = map<string, Json>

  const DefaultRepository: string := "https://raw.githubusercontent.com/gopu-inc/initlang-packages/main"
  const RepositoryKey: string := "repository"
  const InstalledKey: string := "installed_packages"

  /** The configuration the manager starts from before reading the file. */
  function Defaults(): (d: Document)
    ensures d.Keys == {RepositoryKey, InstalledKey}
    ensures d[RepositoryKey] == Str(DefaultRepository) && d[InstalledKey] == Object(map[])
  {
    map[RepositoryKey := Str(DefaultRepository), InstalledKey := Object(map[])]
  }

  /** What is on disk at the configuration path. */
  datatype ConfigFile =
    | Missing                 // the file does not exist
    | Unreadable              // it exists but cannot be opened or does not parse as a JSON object
    | Stored(doc: Document)   // it holds this JSON object

  /** The configuration has an installed-packages table that is a JSON object. */
  predicate HasTable(c: Document) {
    InstalledKey in c && c[InstalledKey].Object?
  }

  /** The installed-packages table: package name to its recorded entry. */
  function Table(c: Document): map<string, Json>
    requires HasTable(c)
  {
    c[InstalledKey].fields
  }

  /**
   Loading: defaults, overlaid key by key with the file's object when there is one.
   A missing or unreadable file leaves the defaults in place and is not an error.
   */
  function Load(file: ConfigFile): (c: Document)
    ensures !file.Stored? ==> c.Keys == {RepositoryKey, InstalledKey}
    ensures !file.Stored? ==> c[RepositoryKey] == Str(DefaultRepository) && HasTable(c) && Table(c) == map[]
    ensures file.Stored? ==> c.Keys == {RepositoryKey, InstalledKey} + file.doc.Keys
    ensures file.Stored? ==> forall k :: k in file.doc ==> c[k] == file.doc[k]
    ensures forall k :: k in Defaults() && (!file.Stored? || k !in file.doc) ==> c[k] == Defaults()[k]
    ensures HasTable(c) <==> !(file.Stored? && InstalledKey in file.doc && !file.doc[InstalledKey].Object?)
  {
    match file
    case Stored(doc) => Defaults() + doc
    case _ => Defaults()
  }

  /** How far writing the configuration file got. */
  datatype SaveOutcome =
    | NotOpened   // opening the file for writing raised: the file is as it was
    | Truncated   // the file was opened, which empties it, and then writing raised
    | Saved       // the whole object was written

  /**
   The configuration file after saving `c` over `before`. Opening for writing
   empties the file first, so a write that fails midway leaves a file that no
   longer parses, and the next load falls back to the defaults.
   */
  function AfterSave(before: ConfigFile, c: Document, outcome: SaveOutcome): (after: ConfigFile)
    ensures outcome == NotOpened ==> after == before
    ensures outcome == Truncated ==> Load(after) == Defaults()
    ensures outcome == Saved && RepositoryKey in c && InstalledKey in c ==> Load(after) == c
    ensures outcome == Saved ==> after.Stored? && after.doc == c
  {
    match outcome
    case NotOpened => before
    case Truncated => Unreadable
    case Saved => Stored(c)
  }

  /** Saving a configuration that has both well-known keys and loading it back gives it unchanged. */
  lemma SaveLoadRoundTrip(c: Document)
    requires RepositoryKey in c && InstalledKey in c
    ensures Load(Stored(c)) == c
  {
  }

  /** Loading, saving what was loaded, and loading again yields the same configuration. */
  lemma ReloadIsStable(file: ConfigFile)
    ensures Load(Stored(Load(file))) == Load(file)
  {
  }
}

=== FILE: index.dfy ===
/**
 The remote package index: a JSON object from package name to its record.
 Fetching it goes to the network and then rewrites the local cache copy;
 any failure along the way degrades to an empty index.
 */
module Index {
  import opened Config

  /** An index record; only its version is read by the installer. */
  datatype PackageInfo = PackageInfo(version: Json)

  type PackageIndex = map<string, PackageInfo>

  /** What happened when the index was requested from the repository. */
  datatype IndexResponse =
    | FetchFailed                                   // the request, the decoding or the JSON parse raised
    | Received(index: PackageIndex, cached: bool)   // parsed; cached says whether the cache file was written

  /** The index the installer works with: the received one, or empty after any failure. */
  function FetchPackageIndex(response: IndexResponse): (index: PackageIndex)
    ensures response.Received? && response.cached ==> index == response.index
    ensures !(response.Received? && response.cached) ==> index == map[]
  {
    match response
    case Received(received, cached) => if cached then received else map[]
    case FetchFailed => map[]
  }
}

=== FILE: installer.dfy ===
/**
 The installation decision chain, as functions over the in-memory
 configuration and the configuration file on disk. Every network and
 filesystem step is an outcome supplied by the caller.
 */
module Installer {
  import opened Config
  import opened Index
  import opened Paths

  /** The version recorded for a package installed from a local directory. */
  const LocalVersion: string := "1.0.0"

  /** The last component of a parent-directory path: its package directory is the application home. */
  const ParentName: string := ".."

  /** The in-memory configuration and the configuration file, the two things an install changes. */
  datatype Session = Session(config: Document, disk: ConfigFile)

  /** What downloading and writing one package did. */
  datatype Transfer =
    | DownloadFailed         // fetching or decoding main.init raised
    | WriteFailed            // creating the package directory or writing one of its files raised
    | Written(save: SaveOutcome)   // the files were written; save says how saving the configuration went

  /** What installing one requested name reported. */
  datatype InstallStatus = AlreadyInstalled | NotFound | Succeeded | Failed

  /** What a local install did: nothing (no main.init), finished, or raised out of the command. */
  datatype LocalStatus = NoMainInit | LocalInstalled | Raised

  /** An installed-packages entry. */
  function Entry(version: Json, path: string): Json {
    Object(map["version" := version, "path" := Str(path)])
  }

  /** Every entry of `small` is in `large` with the same value. */
  ghost predicate SubMap(small: map<string, Json>, large: map<string, Json>) {
    forall k :: k in small ==> k in large && large[k] == small[k]
  }

  /** `after` agrees with `before` at every key other than `key`. */
  ghost predicate AgreeExcept(before: map<string, Json>, after: map<string, Json>, key: string) {
    forall k :: k != key ==> (k in before <==> k in after) && (k in before ==> after[k] == before[k])
  }

  /** The configuration with `entry` recorded under `name` in its installed-packages table. */
  function Record(c: Document, name: string, entry: Json): (r: Document)
    requires HasTable(c)
    ensures HasTable(r) && Table(r) == Table(c)[name := entry]
    ensures r - {InstalledKey} == c - {InstalledKey}
  {
    c[InstalledKey := Object(Table(c)[name := entry])]
  }

  /**
   Installing one name against an index: an installed name or one the index
   lacks is left alone; otherwise a written package is recorded at its
   directory under the packages directory, and the configuration is saved.
   A failing save is caught after the entry was recorded in memory; if it
   failed after opening the file, the file has been emptied.
   */
  function InstallSingle(s: Session, dir: string, name: string, index: PackageIndex, t: Transfer): (r: (Session, InstallStatus))
    requires HasTable(s.config)
    ensures HasTable(r.0.config)
    ensures r.0.config - {InstalledKey} == s.config - {InstalledKey}
    ensures AgreeExcept(Table(s.config), Table(r.0.config), name)
    ensures name in Table(r.0.config) <==> name in Table(s.config) || (name in index && t.Written?)
    ensures name in Table(s.config) ==> Table(r.0.config)[name] == Table(s.config)[name]
    ensures name !in Table(s.config) && name in Table(r.0.config) ==>
              Table(r.0.config)[name] == Entry(index[name].version, JoinPath(dir, name))
    ensures r.1 == AlreadyInstalled <==> name in Table(s.config)
    ensures r.1 == NotFound <==> name !in Table(s.config) && name !in index
    ensures r.1 == Succeeded <==> name !in Table(s.config) && name in index && t == Written(Saved)
    ensures r.1 == Succeeded ==> r.0.disk == Stored(r.0.config)
    ensures r.1 != Succeeded ==> r.0.disk == if r.1 == Failed && t == Written(Truncated) then Unreadable else s.disk
  {
    if name in Table(s.config) then (s, AlreadyInstalled)
    else if name !in index then (s, NotFound)
    else
      match t
      case DownloadFailed => (s, Failed)
      case WriteFailed => (s, Failed)
      case Written(save) =>
        var config := Record(s.config, name, Entry(index[name].version, JoinPath(dir, name)));
        (Session(config, AfterSave(s.disk, config, save)), if save == Saved then Succeeded else Failed)
  }

  /** The names installed one after another against one index, transfer `ts[i]` serving `names[i]`. */
  function InstallAll(s: Session, dir: string, names: seq<string>, index: PackageIndex, ts: seq<Transfer>): (r: (Session, seq<InstallStatus>))
    requires HasTable(s.config) && |ts| == |names|
    ensures HasTable(r.0.config) && |r.1| == |names|
    ensures r.0.config - {InstalledKey} == s.config - {InstalledKey}
    ensures SubMap(Table(s.config), Table(r.0.config))
    decreases |names|
  {
    if names == [] then (s, [])
    else
      var n := |names| - 1;
      var before := InstallAll(s, dir, names[..n], index, ts[..n]);
      var last := InstallSingle(before.0, dir, names[n], index, ts[n]);
      (last.0, before.1 + [last.1])
  }

  /** A batch install: fetch the index once; an empty index stops everything. */
  function Install(s: Session, dir: string, names: seq<string>, response: IndexResponse, ts: seq<Transfer>): (r: (Session, seq<InstallStatus>))
    requires HasTable(s.config) && |ts| == |names|
    ensures FetchPackageIndex(response) == map[] ==> r == (s, [])
    ensures FetchPackageIndex(response) != map[] ==> |r.1| == |names|
    ensures HasTable(r.0.config) && SubMap(Table(s.config), Table(r.0.config))
  {
    var index := FetchPackageIndex(response);
    if index == map[] then (s, []) else InstallAll(s, dir, names, index, ts)
  }

  /**
   Installing from a local directory: the package is named after the
   directory's last component and recorded, overwriting any entry of that
   name, with the fixed local version. The existing target directory is
   removed first, which for ".." deletes the configuration file. Failures of
   the copy or of the save are not caught; a save that fails after opening
   the file has emptied it.
   */
  function InstallLocal(s: Session, dir: string, path: string, hasMainInit: bool, copied: bool, save: SaveOutcome): (r: (Session, LocalStatus))
    requires HasTable(s.config)
    ensures HasTable(r.0.config)
    ensures r.0.config - {InstalledKey} == s.config - {InstalledKey}
    ensures AgreeExcept(Table(s.config), Table(r.0.config), BaseName(path))
    ensures hasMainInit && copied ==>
              BaseName(path) in Table(r.0.config) &&
              Table(r.0.config)[BaseName(path)] == Entry(Str(LocalVersion), JoinPath(dir, BaseName(path)))
    ensures !(hasMainInit && copied) ==> r.0.config == s.config
    ensures r.1 == NoMainInit <==> !hasMainInit
    ensures r.1 == LocalInstalled <==> hasMainInit && copied && save == Saved
    ensures r.1 == LocalInstalled ==> r.0.disk == Stored(r.0.config)
    ensures r.1 != LocalInstalled ==>
              r.0.disk == if hasMainInit && copied && save == Truncated then Unreadable
                          else if hasMainInit && BaseName(path) == ParentName then Missing
                          else s.disk
  {
    var name := BaseName(path);
    if !hasMainInit then (s, NoMainInit)
    else
      var cleared := Session(s.config, ClearTarget(s.disk, name));
      if !copied then (cleared, Raised)
      else
        var config := Record(s.config, name, Entry(Str(LocalVersion), JoinPath(dir, name)));
        (Session(config, AfterSave(cleared.disk, config, save)), if save == Saved then LocalInstalled else Raised)
  }

  /**
   The configuration file after the existing target directory `dir / name` is
   removed ahead of the copy. For the name ".." the target is the parent of the
   packages directory, the application home, and removing it deletes the
   configuration file with everything else there.
   */
  function ClearTarget(disk: ConfigFile, name: string): (after: ConfigFile)
    ensures name == ParentName ==> after == Missing && Load(after) == Defaults()
    ensures name != ParentName ==> after == disk
  {
    if name == ParentName then Missing else disk
  }

  // ---------------------------------------------------------------------------
  // Properties of a batch install

  /** Some transfer for `name` among the first requests wrote the package while the index listed it. */
  ghost predicate WrittenFor(names: seq<string>, index: PackageIndex, ts: seq<Transfer>, name: string)
    requires |ts| == |names|
  {
    name in index && exists i :: 0 <= i < |names| && names[i] == name && ts[i].Written?
  }

  /** A name was written by the first n+1 requests when it was by the first n or by request n. */
  lemma WrittenForStep(names: seq<string>, index: PackageIndex, ts: seq<Transfer>, name: string)
    requires |ts| == |names| && names != []
    ensures var n := |names| - 1;
            WrittenFor(names, index, ts, name) <==>
              WrittenFor(names[..n], index, ts[..n], name) || (name in index && names[n] == name && ts[n].Written?)
  {
    var n := |names| - 1;
    if WrittenFor(names[..n], index, ts[..n], name) {
      var i :| 0 <= i < n && names[..n][i] == name && ts[..n][i].Written?;
      assert names[i] == name && ts[i].Written?;
    }
    if WrittenFor(names, index, ts, name) && !(names[n] == name && ts[n].Written?) {
      var i :| 0 <= i < |names| && names[i] == name && ts[i].Written?;
      assert i < n && names[..n][i] == name && ts[..n][i].Written?;
    }
  }

  /** A name is installed after a batch exactly when it was before or one of its transfers wrote it. */
  lemma {:induction false} InstallAllHas(s: Session, dir: string, names: seq<string>, index: PackageIndex, ts: seq<Transfer>, name: string)
    requires HasTable(s.config) && |ts| == |names|
    ensures name in Table(InstallAll(s, dir, names, index, ts).0.config) <==>
              name in Table(s.config) || WrittenFor(names, index, ts, name)
    decreases |names|
  {
    if names != [] {
      var n := |names| - 1;
      InstallAllHas(s, dir, names[..n], index, ts[..n], name);
      WrittenForStep(names, index, ts, name);
      var before := InstallAll(s, dir, names[..n], index, ts[..n]);
      assert InstallAll(s, dir, names, index, ts).0 == InstallSingle(before.0, dir, names[n], index, ts[n]).0;
    }
  }

  /** A name added by a batch is recorded with the index's version at its package directory. */
  lemma {:induction false} InstallAllEntry(s: Session, dir: string, names: seq<string>, index: PackageIndex, ts: seq<Transfer>, name: string)
    requires HasTable(s.config) && |ts| == |names|
    requires name !in Table(s.config) && name in Table(InstallAll(s, dir, names, index, ts).0.config)
    ensures name in index
    ensures Table(InstallAll(s, dir, names, index, ts).0.config)[name] == Entry(index[name].version, JoinPath(dir, name))
    decreases |names|
  {
    var n := |names| - 1;
    var before := InstallAll(s, dir, names[..n], index, ts[..n]);
    if name in Table(before.0.config) {
      InstallAllEntry(s, dir, names[..n], index, ts[..n], name);
    }
  }

  /** The statuses of a batch's first `m` requests are those of the batch of its first `m` names. */
  lemma {:induction false} InstallAllPrefix(s: Session, dir: string, names: seq<string>, index: PackageIndex, ts: seq<Transfer>, m: nat)
    requires HasTable(s.config) && |ts| == |names| && m <= |names|
    ensures InstallAll(s, dir, names, index, ts).1[..m] == InstallAll(s, dir, names[..m], index, ts[..m]).1
    decreases |names|
  {
    if m < |names| {
      var n := |names| - 1;
      InstallAllPrefix(s, dir, names[..n], index, ts[..n], m);
      assert names[..n][..m] == names[..m] && ts[..n][..m] == ts[..m];
      var before := InstallAll(s, dir, names[..n], index, ts[..n]).1;
      assert InstallAll(s, dir, names, index, ts).1[..m] == before[..m];
    } else {
      assert names[..m] == names && ts[..m] == ts;
    }
  }

  /** The j-th status of a batch is what installing names[j] reports after the first j requests. */
  lemma InstallAllStep(s: Session, dir: string, names: seq<string>, index: PackageIndex, ts: seq<Transfer>, j: nat)
    requires HasTable(s.config) && |ts| == |names| && j < |names|
    ensures var before := InstallAll(s, dir, names[..j], index, ts[..j]);
            InstallAll(s, dir, names, index, ts).1[j] == InstallSingle(before.0, dir, names[j], index, ts[j]).1
  {
    var m := j + 1;
    var prefixNames, prefixTs := names[..m], ts[..m];
    InstallAllPrefix(s, dir, names, index, ts, m);
    assert prefixNames[..j] == names[..j] && prefixTs[..j] == ts[..j];
    var before := InstallAll(s, dir, names[..j], index, ts[..j]);
    var step := InstallSingle(before.0, dir, names[j], index, ts[j]);
    assert InstallAll(s, dir, prefixNames, index, prefixTs).1 == before.1 + [step.1];
    var all := InstallAll(s, dir, names, index, ts).1;
    assert all[j] == all[..m][j];
  }

  /**
   The j-th request of a batch is a no-op exactly when its name was installed
   before the batch or an earlier transfer for the same name wrote it.
   */
  lemma InstallAllStatus(s: Session, dir: string, names: seq<string>, index: PackageIndex, ts: seq<Transfer>, j: nat)
    requires HasTable(s.config) && |ts| == |names| && j < |names|
    ensures InstallAll(s, dir, names, index, ts).1[j] == AlreadyInstalled <==>
              names[j] in Table(s.config) || WrittenFor(names[..j], index, ts[..j], names[j])
    ensures InstallAll(s, dir, names, index, ts).1[j] == NotFound <==>
              names[j] !in Table(s.config) && names[j] !in index
    ensures InstallAll(s, dir, names, index, ts).1[j] == Succeeded <==>
              !(names[j] in Table(s.config) || WrittenFor(names[..j], index, ts[..j], names[j])) &&
              names[j] in index && ts[j] == Written(Saved)
  {
    InstallAllStep(s, dir, names, index, ts, j);
    var before := InstallAll(s, dir, names[..j], index, ts[..j]);
    InstallAllHas(s, dir, names[..j], index, ts[..j], names[j]);
    if names[j] in Table(s.config) {
      assert names[j] in Table(before.0.config);
    }
  }

  /** A name repeated later in a request is a no-op once an earlier request for it succeeded or found it installed. */
  lemma RepeatedNameIsNoOp(s: Session, dir: string, names: seq<string>, index: PackageIndex, ts: seq<Transfer>, i: nat, j: nat)
    requires HasTable(s.config) && |ts| == |names|
    requires i < j < |names| && names[i] == names[j]
    requires InstallAll(s, dir, names, index, ts).1[i] in {Succeeded, AlreadyInstalled}
    ensures InstallAll(s, dir, names, index, ts).1[j] == AlreadyInstalled
  {
    InstallAllStatus(s, dir, names, index, ts, i);
    InstallAllStatus(s, dir, names, index, ts, j);
    if names[i] !in Table(s.config) {
      var k := i;
      if !(names[i] in index && ts[i] == Written(Saved)) {
        k :| 0 <= k < i && names[..i][k] == names[i] && ts[..i][k].Written?;
      }
      assert names[..j][k] == names[j] && ts[..j][k].Written?;
    }
  }

  /**
   A failed request does not hold back the rest: of two new names that the
   index lists, the first failing to download and the second written, only
   the second is installed afterwards.
   */
  lemma FailureIsIsolated(s: Session, dir: string, index: PackageIndex, x: string, y: string, save: SaveOutcome)
    requires HasTable(s.config) && x != y
    requires x !in Table(s.config) && y !in Table(s.config) && x in index && y in index
    ensures var r := InstallAll(s, dir, [x, y], index, [DownloadFailed, Written(save)]);
            x !in Table(r.0.config) && y in Table(r.0.config) && r.1 == [Failed, if save == Saved then Succeeded else Failed]
  {
    var names, ts := [x, y], [DownloadFailed, Written(save)];
    InstallAllHas(s, dir, names, index, ts, x);
    InstallAllHas(s, dir, names, index, ts, y);
    assert names[..1] == [x] && ts[..1] == [DownloadFailed];
    assert [x][..0] == [] && [DownloadFailed][..0] == [];
    assert InstallAll(s, dir, [], index, []) == (s, []);
    assert InstallSingle(s, dir, x, index, DownloadFailed) == (s, Failed);
    var first := InstallAll(s, dir, [x], index, [DownloadFailed]);
    assert first == (s, [] + [Failed]);
  }

  /** The configuration file holds the in-memory configuration as it was at some moment of the batch. */
  ghost predicate SavedFrom(disk: ConfigFile, config: Document)
    requires HasTable(config)
  {
    disk.Stored? && HasTable(disk.doc) && SubMap(Table(disk.doc), Table(config)) &&
    disk.doc - {InstalledKey} == config - {InstalledKey}
  }

  /** Request j reached the save, and the save emptied the configuration file without writing it. */
  ghost predicate TruncatedAt(statuses: seq<InstallStatus>, ts: seq<Transfer>, j: int)
    requires |statuses| == |ts|
  {
    0 <= j < |ts| && statuses[j] == Failed && ts[j] == Written(Truncated)
  }

  /**
   One request and the configuration file: a success leaves the file holding
   the new configuration, including the requested name; a request that did
   not reach a save that opened the file leaves it as it was; and a file that
   held a snapshot of the configuration still holds one afterwards.
   */
  lemma SaveStep(s: Session, dir: string, name: string, index: PackageIndex, t: Transfer)
    requires HasTable(s.config)
    ensures var r := InstallSingle(s, dir, name, index, t);
            && (r.1 == Succeeded ==> SavedFrom(r.0.disk, r.0.config) && name in Table(r.0.disk.doc))
            && (r.1 != Succeeded && !(r.1 == Failed && t == Written(Truncated)) ==> r.0.disk == s.disk)
            && (SavedFrom(s.disk, s.config) ==> SavedFrom(s.disk, r.0.config))
  {
    var r := InstallSingle(s, dir, name, index, t);
    assert SubMap(Table(s.config), Table(r.0.config));
  }

  /** The first n statuses of a batch, and which of them emptied the file, are those of the batch of its first n requests. */
  lemma BatchFront(s: Session, dir: string, names: seq<string>, index: PackageIndex, ts: seq<Transfer>)
    requires HasTable(s.config) && |ts| == |names| && names != []
    ensures var n := |names| - 1;
            var before := InstallAll(s, dir, names[..n], index, ts[..n]);
            var r := InstallAll(s, dir, names, index, ts);
            && r == (InstallSingle(before.0, dir, names[n], index, ts[n]).0, before.1 + [r.1[n]])
            && (forall j :: 0 <= j < n ==> r.1[j] == before.1[j])
            && (forall j :: 0 <= j < n ==> (TruncatedAt(r.1, ts, j) <==> TruncatedAt(before.1, ts[..n], j)))
  {
    var n := |names| - 1;
    var before := InstallAll(s, dir, names[..n], index, ts[..n]);
    var r := InstallAll(s, dir, names, index, ts);
    assert forall j :: 0 <= j < n ==> r.1[j] == before.1[j] && ts[..n][j] == ts[j];
  }

  /** After a batch, the configuration file is untouched when no request succeeded or had its save cut short after opening. */
  lemma {:induction false} FileUntouchedWithoutSave(s: Session, dir: string, names: seq<string>, index: PackageIndex, ts: seq<Transfer>)
    requires HasTable(s.config) && |ts| == |names|
    ensures var r := InstallAll(s, dir, names, index, ts);
            (forall j :: 0 <= j < |names| ==> r.1[j] != Succeeded && !TruncatedAt(r.1, ts, j)) ==> r.0.disk == s.disk
    decreases |names|
  {
    if names != [] {
      var n := |names| - 1;
      FileUntouchedWithoutSave(s, dir, names[..n], index, ts[..n]);
      BatchFront(s, dir, names, index, ts);
      var before := InstallAll(s, dir, names[..n], index, ts[..n]);
      SaveStep(before.0, dir, names[n], index, ts[n]);
    }
  }

  /** After a batch, the configuration file is untouched, emptied, or a snapshot of the in-memory configuration. */
  lemma {:induction false} FileHoldsSnapshot(s: Session, dir: string, names: seq<string>, index: PackageIndex, ts: seq<Transfer>)
    requires HasTable(s.config) && |ts| == |names|
    ensures var r := InstallAll(s, dir, names, index, ts);
            r.0.disk == s.disk || r.0.disk == Unreadable || SavedFrom(r.0.disk, r.0.config)
    decreases |names|
  {
    if names != [] {
      var n := |names| - 1;
      FileHoldsSnapshot(s, dir, names[..n], index, ts[..n]);
      BatchFront(s, dir, names, index, ts);
      var before := InstallAll(s, dir, names[..n], index, ts[..n]);
      SaveStep(before.0, dir, names[n], index, ts[n]);
    }
  }

  /**
   Every success is saved at once: after a batch, the configuration file
   holds every name that succeeded after which no save emptied the file, as
   part of a snapshot of the in-memory configuration.
   */
  lemma {:induction false} SuccessesAreSaved(s: Session, dir: string, names: seq<string>, index: PackageIndex, ts: seq<Transfer>)
    requires HasTable(s.config) && |ts| == |names|
    ensures var r := InstallAll(s, dir, names, index, ts);
            forall i ::
              (0 <= i < |names| && r.1[i] == Succeeded && (forall j :: i < j < |names| ==> !TruncatedAt(r.1, ts, j))) ==>
              SavedFrom(r.0.disk, r.0.config) && names[i] in Table(r.0.disk.doc)
    decreases |names|
  {
    if names != [] {
      var n := |names| - 1;
      SuccessesAreSaved(s, dir, names[..n], index, ts[..n]);
      BatchFront(s, dir, names, index, ts);
      var before := InstallAll(s, dir, names[..n], index, ts[..n]);
      SaveStep(before.0, dir, names[n], index, ts[n]);
      var r := InstallAll(s, dir, names, index, ts);
      forall i | 0 <= i < |names| && r.1[i] == Succeeded && (forall j :: i < j < |names| ==> !TruncatedAt(r.1, ts, j))
        ensures SavedFrom(r.0.disk, r.0.config) && names[i] in Table(r.0.disk.doc)
      {
        if i < n {
          assert !TruncatedAt(r.1, ts, n);
          assert names[..n][i] == names[i];
          assert forall j :: i < j < n ==> !TruncatedAt(before.1, ts[..n], j);
        }
      }
    }
  }

  /**
   A save that fails after opening the file loses what earlier saves wrote:
   of two new listed names, the first installed and saved and the second
   written but its save cut short, both are recorded in memory, but the file
   no longer parses and the next load finds no installed package at all.
   */
  lemma TruncatedSaveForgetsInstalls(s: Session, dir: string, index: PackageIndex, a: string, b: string)
    requires HasTable(s.config) && a != b
    requires a !in Table(s.config) && b !in Table(s.config) && a in index && b in index
    ensures var r := InstallAll(s, dir, [a, b], index, [Written(Saved), Written(Truncated)]);
            && r.1 == [Succeeded, Failed]
            && a in Table(r.0.config) && b in Table(r.0.config)
            && r.0.disk == Unreadable && Table(Load(r.0.disk)) == map[]
  {
    var names, ts := [a, b], [Written(Saved), Written(Truncated)];
    assert names[..1] == [a] && ts[..1] == [Written(Saved)];
    assert [a][..0] == [] && [Written(Saved)][..0] == [];
    assert InstallAll(s, dir, [], index, []) == (s, []);
    var first := InstallAll(s, dir, [a], index, [Written(Saved)]);
    assert first.1 == [] + [Succeeded];
    assert a in Table(first.0.config);
  }

  /**
   Installing from ".." that does not finish leaves no configuration file: the
   removal of the target deleted it, so the next load finds no installed
   package, whatever the copy and the save did short of finishing.
   */
  lemma LocalInstallOfParentForgetsInstalls(s: Session, dir: string, copied: bool, save: SaveOutcome)
    requires HasTable(s.config)
    ensures var r := InstallLocal(s, dir, "..", true, copied, save);
            r.1 != LocalInstalled ==> r.0.disk in {Missing, Unreadable} && Table(Load(r.0.disk)) == map[]
  {
    ParentDirectoryName();
  }

  /**
   Installing from "." names the package "" (the current directory has no
   name of its own), so the copy targets the packages directory itself.
   */
  lemma LocalInstallOfCurrentDirectory(s: Session, dir: string, save: SaveOutcome)
    requires HasTable(s.config)
    ensures var r := InstallLocal(s, dir, ".", true, true, save);
            "" in Table(r.0.config) && Table(r.0.config)[""] == Entry(Str(LocalVersion), dir)
  {
    CurrentDirectoryHasNoName();
  }
}

=== FILE: manager.dfy ===
/**
 The package manager object: it holds the configuration in memory, updates
 it in place as packages are installed, and writes it back to the
 configuration file after every recorded install.
 */
module Manager {
  import opened Config
  import opened Index
  import opened Paths
  import opened Installer

  class PackageManager {
    /** The directory holding one sub-directory per installed package. */
    const packagesDir: string
    /** The configuration in memory. */
    var config: Document
    /** What the configuration file holds. */
    var disk: ConfigFile

    /** A manager over the given packages directory and configuration file, with the configuration loaded. */
    constructor (packagesDir: string, file: ConfigFile)
      ensures this.packagesDir == packagesDir && disk == file
      ensures config == Load(file)
    {
      this.packagesDir := packagesDir;
      disk := file;
      config := map[];
      new;
      LoadConfig();
    }

    /** Defaults, then the file's keys laid over them; a missing or unreadable file leaves the defaults. */
    method LoadConfig()
      modifies this`config
      ensures config == Load(disk)
    {
      config := Defaults();
      if disk.Stored? {
        config := config + disk.doc;
      }
    }

    /**
     Writes the configuration to its file; `outcome` says how far the write got.
     Opening the file for writing empties it, so a write that fails after the
     open leaves a file that no longer parses.
     */
    method SaveConfig(outcome: SaveOutcome) returns (saved: bool)
      modifies this`disk
      ensures saved <==> outcome == Saved
      ensures disk == AfterSave(old(disk), config, outcome)
    {
      saved := outcome == Saved;
      match outcome
      case NotOpened =>
      case Truncated =>
        disk := Unreadable;
      case Saved =>
        disk := Stored(config);
    }

    /** Installs one name against an already fetched index; `t` is what the download and the writes did. */
    method InstallSingle(name: string, index: PackageIndex, t: Transfer) returns (status: InstallStatus)
      requires HasTable(config)
      modifies this`config, this`disk
      ensures (Session(config, disk), status) == Installer.InstallSingle(old(Session(config, disk)), packagesDir, name, index, t)
    {
      if name in config[InstalledKey].fields {
        return AlreadyInstalled;
      }
      if name !in index {
        return NotFound;
      }
      var info := index[name];
      match t
      case DownloadFailed =>
        status := Failed;
      case WriteFailed =>
        status := Failed;
      case Written(save) =>
        var entry := Entry(info.version, JoinPath(packagesDir, name));
        config := config[InstalledKey := Object(config[InstalledKey].fields[name := entry])];
        var saved := SaveConfig(save);
        status := if saved then Succeeded else Failed;
    }

    /** Fetches the index once and installs the names in order; `transfers[i]` serves `names[i]`. */
    method Install(names: seq<string>, response: IndexResponse, transfers: seq<Transfer>) returns (statuses: seq<InstallStatus>)
      requires HasTable(config) && |transfers| == |names|
      modifies this`config, this`disk
      ensures (Session(config, disk), statuses) == Installer.Install(old(Session(config, disk)), packagesDir, names, response, transfers)
    {
      var index := FetchPackageIndex(response);
      if index == map[] {
        return [];
      }
      statuses := [];
      for i := 0 to |names|
        invariant HasTable(config)
        invariant (Session(config, disk), statuses) ==
                  InstallAll(old(Session(config, disk)), packagesDir, names[..i], index, transfers[..i])
      {
        assert names[..i + 1][..i] == names[..i] && transfers[..i + 1][..i] == transfers[..i];
        var status := InstallSingle(names[i], index, transfers[i]);
        statuses := statuses + [status];
      }
      assert names[..|names|] == names && transfers[..|transfers|] == transfers;
    }

    /**
     Installs the directory at `path` under its last component. `hasMainInit`
     says whether it holds main.init, `copied` whether replacing the target
     directory with a copy of it went through, `save` how far saving got.
     Removing the target for ".." deletes the configuration file.
     */
    method InstallLocal(path: string, hasMainInit: bool, copied: bool, save: SaveOutcome) returns (status: LocalStatus)
      requires HasTable(config)
      modifies this`config, this`disk
      ensures (Session(config, disk), status) ==
              Installer.InstallLocal(old(Session(config, disk)), packagesDir, path, hasMainInit, copied, save)
    {
      var name := BaseName(path);
      if !hasMainInit {
        return NoMainInit;
      }
      disk := ClearTarget(disk, name);
      if !copied {
        return Raised;
      }
      var entry := Entry(Str(LocalVersion), JoinPath(packagesDir, name));
      config := config[InstalledKey := Object(config[InstalledKey].fields[name := entry])];
      var saved := SaveConfig(save);
      status := if saved then LocalInstalled else Raised;
    }
  }
}

=== FILE: paths.dfy ===
/**
 POSIX path handling as the package manager uses it: the last component of a
 source directory (`Path.name`) and a package directory under the packages
 directory (`PACKAGES_DIR / name`). Path objects keep a path's non-empty parts,
 dropping "." parts; ".." is kept as an ordinary part.
 */
module Paths {

  /** A single path component that is kept as a part: non-empty, not ".", without a separator. */
  predicate IsName(s: string) {
    s != "" && s != "." && '/' !in s
  }

  /** The segments between separators, as splitting at every '/' yields them. */
  function Split(p: string): (parts: seq<string>)
    ensures |parts| >= 1
    ensures forall i :: 0 <= i < |parts| ==> '/' !in parts[i]
    decreases |p|
  {
    if p == [] then [[]] else Extend(Split(p[..|p| - 1]), p[|p| - 1])
  }

  /** The segments after one more character: a separator opens a new segment, anything else joins the last one. */
  function Extend(segments: seq<string>, c: char): (parts: seq<string>)
    requires |segments| >= 1
    requires forall i :: 0 <= i < |segments| ==> '/' !in segments[i]
    ensures |parts| >= 1
    ensures forall i :: 0 <= i < |parts| ==> '/' !in parts[i]
  {
    if c == '/' then segments + [[]]
    else segments[..|segments| - 1] + [segments[|segments| - 1] + [c]]
  }

  /** A segment that path objects drop: empty (from "//" or an end separator) or ".". */
  predicate Dropped(segment: string) {
    segment == "" || segment == "."
  }

  /** The segments that are kept as parts: empty and "." segments are dropped. */
  function Keep(segments: seq<string>): (parts: seq<string>)
    ensures forall i :: 0 <= i < |parts| ==> !Dropped(parts[i])
    ensures |parts| <= |segments|
  {
    if segments == [] then []
    else
      var last := segments[|segments| - 1];
      Keep(segments[..|segments| - 1]) + (if Dropped(last) then [] else [last])
  }

  /** Every segment is dropped. */
  predicate AllDropped(segments: seq<string>) {
    forall j :: 0 <= j < |segments| ==> Dropped(segments[j])
  }

  /** Segment i is the last one that is not dropped. */
  predicate LastKeptAt(segments: seq<string>, i: int) {
    0 <= i < |segments| && !Dropped(segments[i]) && AllDropped(segments[i + 1..])
  }

  /** Nothing is kept exactly when every segment is dropped. */
  lemma {:induction false} KeepNone(segments: seq<string>)
    ensures Keep(segments) == [] <==> AllDropped(segments)
    decreases |segments|
  {
    if segments != [] {
      var n := |segments| - 1;
      var init, last := segments[..n], segments[n];
      KeepNone(init);
      assert Keep(segments) == Keep(init) + (if Dropped(last) then [] else [last]);
      assert forall j :: 0 <= j < n ==> init[j] == segments[j];
      assert AllDropped(segments) <==> AllDropped(init) && Dropped(last);
    }
  }

  /** A dropped segment after segments that are all dropped keeps them all dropped. */
  lemma AllDroppedAppend(segments: seq<string>, last: string)
    requires AllDropped(segments) && Dropped(last)
    ensures AllDropped(segments + [last])
  {
    var joined := segments + [last];
    forall j | 0 <= j < |joined|
      ensures Dropped(joined[j])
    {
      if j < |segments| {
        assert joined[j] == segments[j];
      }
    }
  }

  /** The last kept segment is the last segment that is not dropped. */
  lemma {:induction false} KeepLast(segments: seq<string>)
    requires Keep(segments) != []
    ensures exists i :: LastKeptAt(segments, i) && segments[i] == Keep(segments)[|Keep(segments)| - 1]
    decreases |segments|
  {
    var n := |segments| - 1;
    var init, last := segments[..n], segments[n];
    if Dropped(last) {
      assert Keep(segments) == Keep(init);
      KeepLast(init);
      var i :| LastKeptAt(init, i) && init[i] == Keep(init)[|Keep(init)| - 1];
      assert segments[i] == init[i];
      AllDroppedAppend(init[i + 1..], last);
      assert segments[i + 1..] == init[i + 1..] + [last];
      assert LastKeptAt(segments, i);
    } else {
      assert Keep(segments) == Keep(init) + [last];
      assert segments[n + 1..] == [];
      assert LastKeptAt(segments, n);
    }
  }

  /**
   `Path(p).name`: the last segment of the path that is kept as a part, or ""
   when every segment is dropped ("", "/", ".", "./").
   */
  function BaseName(p: string): (name: string)
    ensures name == "" || IsName(name)
    ensures name == "" <==> AllDropped(Split(p))
    ensures name != "" ==> exists i :: LastKeptAt(Split(p), i) && Split(p)[i] == name
  {
    var parts := Keep(Split(p));
    KeepNone(Split(p));
    if parts == [] then "" else KeepLast(Split(p)); parts[|parts| - 1]
  }

  /**
   `dir / name` for a name that is a single part or empty: the package
   directory lies under `dir` and its last component is the name; an empty
   name leaves the directory itself.
   */
  function JoinPath(dir: string, name: string): (path: string)
    ensures name == "" ==> path == dir
    ensures |path| >= |dir| && path[..|dir|] == dir
    ensures IsName(name) ==> BaseName(path) == name
  {
    if name == "" then dir
    else
      assert IsName(name) ==> BaseName(dir + "/" + name) == name by {
        if IsName(name) { JoinedBaseName(dir, name); }
      }
      dir + "/" + name
  }

  /** The current directory "." has no name: its only segment is dropped. */
  lemma CurrentDirectoryHasNoName()
    ensures BaseName(".") == ""
  {
    SplitSingle(".");
    assert AllDropped(["."]);
  }

  /** The parent directory ".." is a name of its own: path objects keep ".." as a part. */
  lemma ParentDirectoryName()
    ensures BaseName("..") == ".."
  {
    SplitSingle("..");
    assert [".."][..0] == [];
    assert Keep([".."]) == [".."];
  }

  lemma {:induction false} SplitSingle(s: string)
    requires '/' !in s
    ensures Split(s) == [s]
    decreases |s|
  {
    if s != [] {
      SplitSingle(s[..|s| - 1]);
      assert s[..|s| - 1] + [s[|s| - 1]] == s;
    }
  }

  /** Splitting at a separator between two strings splits each side independently. */
  lemma {:induction false} SplitAround(a: string, b: string)
    ensures Split(a + "/" + b) == Split(a) + Split(b)
    decreases |b|
  {
    var p := a + "/" + b;
    if b == [] {
      assert p[..|p| - 1] == a && p[|p| - 1] == '/';
    } else {
      var b', c := b[..|b| - 1], b[|b| - 1];
      assert p[..|p| - 1] == a + "/" + b' && p[|p| - 1] == c;
      SplitAround(a, b');
      ExtendAppend(Split(a), Split(b'), c);
    }
  }

  lemma ExtendAppend(x: seq<string>, y: seq<string>, c: char)
    requires |x| >= 1 && |y| >= 1
    requires forall i :: 0 <= i < |x| ==> '/' !in x[i]
    requires forall i :: 0 <= i < |y| ==> '/' !in y[i]
    ensures Extend(x + y, c) == x + Extend(y, c)
  {
  }

  lemma {:induction false} KeepAppend(x: seq<string>, y: seq<string>)
    ensures Keep(x + y) == Keep(x) + Keep(y)
    decreases |y|
  {
    if y == [] {
      assert x + y == x;
    } else {
      var y' := y[..|y| - 1];
      assert (x + y)[..|x + y| - 1] == x + y';
      KeepAppend(x, y');
    }
  }

  /** A name appended after a separator is the last component: `(dir / name).name == name`. */
  lemma JoinedBaseName(dir: string, name: string)
    requires IsName(name)
    ensures BaseName(dir + "/" + name) == name
  {
    SplitAround(dir, name);
    SplitSingle(name);
    KeepAppend(Split(dir), [name]);
    assert Keep([name]) == Keep([]) + [name];
  }
}
